=== FILE: README.md ===
# DonorsChoose search client, modelled in Dafny

This project models the core of a small client for the DonorsChoose
project-listing JSON feed:

- the request builders. `generate_http_request` of `dca/dca_py3.py` builds
  the feed URL for a keyword search at an offset and page size, and refuses
  page sizes above the API's cap of 50. The extended builder of `sandbox.py`
  adds `&concise=true`, a four-coordinate bounding box and extra filters
  whose names must be on a fixed allow-list;
- `DonorsChooseResponse`, the accumulator a search merges pages into, with
  its `populate` merge and its `as_ascii` table view;
- the pagination loop of `search_donors_choose`, which requests pages of 50
  at offsets 0, 50, 100, ... and stops at the first page with no proposals.

Modules, one per file:

| module | file | models |
|---|---|---|
| `Strings` | `strings.dfy` | the Python string operations the builders and the view use: whitespace `split()`, `join`, `split(sep)`, `ljust`, `str(int)` |
| `QueryString` | `query_string.dfy` | the query part of a URL read as an ordered list of `key=value` parameters, with an encoder and a decoder |
| `DcaRequest` | `dca_request.dfy` | the basic builder, and the `ValueError`s of both builders as a `Rejected` outcome |
| `SandboxRequest` | `sandbox_request.dfy` | the extended builder |
| `DcaResponse` | `dca_response.dfy` | `DonorsChooseResponse`: two states (`Unpopulated`, `Populated`), `Populate`, `AsAscii` |
| `DcaSearch` | `dca_search.dfy` | the loop (`Paginate`, for any numbering of request URLs) and `SearchDonorsChoose` (the loop with the basic builder's URLs) |

The builders work by string concatenation, as the source does. Each builder's
contract relates its URL to the parameter list it encodes, and
`QueryString.DecodeEncode` proves that list can be read back. The network is
the parameter `fetch: string -> Page`, from a URL to the decoded JSON page.
The search returns the response and the URLs it requested, in order.

Two behaviours of the builders are easy to miss:

- the builders reject only a page size above 50, so 0 and negative sizes are
  accepted (`DcaRequest.GenerateHttpRequest` states exactly this);
- the extended builder tests `if bounding_box:`, so an empty box is skipped
  like an absent one, and only a non-empty box whose length is not 4 is
  rejected (`SandboxRequest.BoxRejected`).

## Model

| member | source | states |
|---|---|---|
| Strings.Words | dca/dca_py3.py:76 | `keywords.split()`: every word is non-empty and holds no whitespace |
| Strings.WordsCover | dca/dca_py3.py:76 | the text is its words interleaved with whitespace runs, one run before, between and after them, and the runs between neighbouring words are non-empty. So `split()` returns exactly the maximal whitespace-free runs, in order, dropping only whitespace |
| Strings.Gaps | dca/dca_py3.py:76 | the whitespace runs around the words of a text: one more run than words, each run all whitespace, and every run between two words non-empty |
| Strings.JoinShape | dca/dca_py3.py:76 | `sep.join(parts)` (also the joins at sandbox.py:36 and dca/dca_py3.py:60) is empty for no parts. Otherwise it starts with the first part, ends with the last, and its length is the parts' total plus one separator per pair of neighbours |
| Strings.WordsJoinSpace | dca/dca_py3.py:76 | `split()` undoes a single-space join of non-empty, whitespace-free words, giving them back in order |
| Strings.SplitJoin | dca/dca_py3.py:76 | `split(sep)` undoes `sep.join` of non-empty, `sep`-free parts: the inverse of the join the builders use |
| Strings.LJust | dca/dca_py3.py:54-59 | `ljust(width)` keeps the string as a prefix and pads it with spaces to `width`, never truncating a longer string |
| Strings.IntToDecimal | dca/dca_py3.py:82 | `str(i)` is non-empty, starts with `-` exactly for negative `i`, and is digits otherwise. It is canonical: 0 renders as `0`, a non-negative numeral starts with `0` only for 0 itself, and a negative numeral's first digit is never `0` |
| Strings.IntRoundTrip | dca/dca_py3.py:82 | reading back the rendered `index` or `max` gives the integer formatted, so distinct integers render differently |
| QueryString.DecodeEncode | dca/dca_py3.py:77-82 | a non-empty list of parameters whose keys hold neither `&` nor `=`, and whose values hold no `&`, decodes back to itself from its `&`-joined encoding |
| QueryString.EncodeAppend | sandbox.py:44-55 | appending `&key=value` for each further parameter encodes the longer parameter list |
| DcaRequest.GenerateHttpRequest | dca/dca_py3.py:64-83 | rejected exactly when `records > 50`, with the records error; otherwise the URL is the endpoint followed by the encoding of APIKey, quoted keyword phrase, index and max |
| DcaRequest.Message | sandbox.py:34-57 | the three `ValueError` texts: the fixed records message; a coordinate message whose count reads back from its digits, with no leading zero; and a parameter message that carries the offending key |
| DcaRequest.BaseUrlEncodes | dca/dca_py3.py:77-82 | the formatted base URL equals the endpoint plus the encoded base parameters, and its query decodes to exactly those four parameters when key and keywords hold no `&` |
| DcaRequest.KeywordPhraseShape | dca/dca_py3.py:76 | the keyword phrase holds no whitespace; it is empty iff there are no words; splitting it on `+` gives back the words when the keywords hold no `+` |
| DcaRequest.AcceptedRequestFields | dca/dca_py3.py:74-83 | an accepted request reads back as APIKey, quoted keywords, `index` = start and `max` = records, the two numbers recoverable from their text |
| SandboxRequest.GenerateHttpRequest | sandbox.py:6-58 | accepted iff records ≤ 50, the box is empty or has 4 coordinates, and every extra key is allowed. Otherwise the first failing check decides the error: records, then box (with its length), then the first bad key. The URL encodes the base, concise, box and extra parameters in that order |
| SandboxRequest.AppendExtras | sandbox.py:53-57 | the kwargs loop fails iff some key is not allowed, naming the first such key, and otherwise appends every pair as `&key=value` in order: all or nothing |
| SandboxRequest.ConciseTail | sandbox.py:44-45 | `concise` appends exactly the encoding of the parameter `concise=true`, and nothing when false |
| SandboxRequest.BoxTail | sandbox.py:47-49 | a four-coordinate box appends exactly the encoding of `nwLat`, `nwLng`, `seLat` and `seLng` with the coordinates in the given order |
| SandboxRequest.PlainMatchesBasic | sandbox.py:34-42 | with no concise flag, no box and no extras, the extended builder returns exactly what the basic builder returns, rejection included |
| SandboxRequest.AcceptedLayout | sandbox.py:42-58 | an accepted URL is the basic builder's URL followed by the concise, box and extra suffixes, so the basic URL is always a prefix |
| SandboxRequest.AcceptedDecodes | sandbox.py:42-58 | when no value holds `&`, an accepted URL's query decodes to exactly the base, concise, box and extra parameters: none lost, added or reordered |
| DcaResponse.FreshThenPopulate | dca/dca_py3.py:28-49 | a fresh response reports total 0 and no proposal list; after one merge both come from the page |
| DcaResponse.Populate | dca/dca_py3.py:38-49 | the first merge takes all metadata and the proposals from the page; a later merge keeps the metadata, keeps the old proposals as a prefix and appends the page's |
| DcaResponse.AccumulatePopulated | dca/dca_py3.py:40-41 | once populated, merging any pages leaves the metadata alone and appends their proposals in order |
| DcaResponse.AccumulateFresh | dca/dca_py3.py:38-49 | merging a non-empty list of pages into a fresh response gives the first page's metadata and all proposals concatenated in order |
| DcaResponse.ConcatLength | dca/dca_py3.py:41 | the number of merged proposals is the sum of the page lengths |
| DcaResponse.MetadataFromFirstMerge | dca/dca_py3.py:40-48 | a second merge never replaces the first page's metadata or total, and merging the same page twice duplicates its proposals |
| DcaResponse.Rule | dca/dca_py3.py:55 | the rule line is 100 dashes |
| DcaResponse.AsAscii | dca/dca_py3.py:51-61 | no text for a fresh response (the source fails iterating `None`); otherwise the text starts with the header line, a newline and the rule |
| DcaResponse.AsciiLines | dca/dca_py3.py:53-60 | when no field holds a newline, the text has exactly 2 + n lines: header, rule, then one row per proposal in order |
| DcaResponse.RowColumns | dca/dca_py3.py:57-59 | a row's length; when id and status fit their widths, the id is at column 0 padded to 15, the status at column 16 padded to 20, the title from column 37 |
| DcaSearch.Paginate | dca/dca_py3.py:103-119 | with n the first request answered by an empty page, the loop makes exactly n + 1 requests, and the k-th URL requested is `request(k)`. No earlier answer is empty, and the response is the first n answers merged one after the other |
| DcaSearch.SearchDonorsChoose | dca/dca_py3.py:103-119 | the k-th URL requested is the search's k-th URL; the requests stop at the first empty page, and the response merges every earlier page in order |
| DcaSearch.RequestsAreBuilt | dca/dca_py3.py:108-109 | the search's k-th URL is what the basic builder returns for offset k × 50, 50 records and the default key, never a rejection |
| DcaSearch.MergedIsAccumulate | dca/dca_py3.py:107-117 | merging page by page inside the loop equals merging the list of the first n answers |
| DcaSearch.MergedShape | dca/dca_py3.py:106-117 | the merged response is fresh iff no page was merged, and otherwise has the first page's metadata and every page's proposals in request order |
| DcaSearch.RequestUrlFields | dca/dca_py3.py:108-109 | the k-th request reads back with `index` = k × 50 and `max` = 50 |
| DcaSearch.CollectedCount | dca/dca_py3.py:113-116 | the number of proposals collected is the sum of the sizes of the pages before the first empty one |
| DcaSearch.SinglePageSearch | dca/dca_py3.py:96-99 | one page of 13 then an empty page: the search stops after two requests with 13 proposals and the first page's total |
| DcaSearch.ShortPageDoesNotStop | dca/dca_py3.py:112-114 | pages of 50, 50 and 13 then an empty page: a short page does not end the search, which collects all 113 |

## Left out

- The HTTP GET and the JSON decoding (`requests.get(url).json()`) are the parameter `fetch`. Transport and decoding errors and missing JSON fields are not modelled.
- The `time.sleep(1)` between requests, the `logging` calls and the `__main__` blocks are I/O and have no effect on the results.
- DcaSearch.Paginate, DcaSearch.SearchDonorsChoose: require that some request is answered with an empty page. The source loops forever otherwise, which a terminating method cannot express.
- `sandbox.py` is Python 2 code (its `print` statements at sandbox.py:63-65 are Python 2 syntax). There `kwargs.iteritems()` yields the keyword pairs, and the model follows the loop as written. Python 2 visits `**kwargs` in the dict's hash order, which the model does not compute: the extra filters are a given sequence of pairs, taken to be in that order.
- Strings.Words: whitespace is the Python 3 `str.isspace` set. Python 2 `str.split()` on a byte string splits only on ASCII whitespace.
- Bounding-box coordinates and extra-filter values are taken as already rendered strings. Python's `str` of floats and other objects is not modelled.
- A keyword-argument dict cannot repeat a key, but the sequence of extra filters can; the model's claims hold either way.
- The JSON `max` and `totalProposals` are integers, and a proposal is only the three fields the view reads. Other JSON value types are not modelled.
- The source extends the first page's proposal list in place, so the caller's JSON object is changed too. Proposal lists here are values, and this aliasing is not modelled.
- DcaResponse.AsAscii: on a fresh response the source raises `TypeError` iterating `None`. The model returns `None` for it.
- DcaResponse.AsciiLines: the line count assumes no id, status or title holds a newline. With a newline the source's text has more lines.
- QueryString.DecodeEncode, DcaRequest.BaseUrlEncodes, DcaRequest.AcceptedRequestFields, DcaSearch.RequestUrlFields, SandboxRequest.AcceptedDecodes: the read-back needs keys without `&` or `=` and values without `&`. The source does no URL escaping, so other values produce ambiguous URLs.

=== FILE: dca_request.dfy ===
/**
 * `generate_http_request` of `dca/dca_py3.py`: builds the JSON-feed request
 * URL for a keyword search, rejecting page sizes above the API's cap of 50.
 * The `ValueError`s raised by both request builders are modelled here as the
 * `Rejected` outcome, carrying which check failed.
 */
module DcaRequest {
  import opened Strings
  import opened QueryString

  /** The API's cap on records per request. */
  const MaxRecords := 50

  const Endpoint := "https://api.donorschoose.org/common/json_feed.html?"

  /** Default `api_key` argument. */
  const DefaultApiKey := "DONORSCHOOSE"

  /** The documentation link quoted in the invalid-parameter message. */
  const Docs := "https://data.donorschoose.org/docs/project-listing/json-requests/"

  /** The three reasons a builder raises `ValueError`. */
  datatype RequestError =
    | RecordsOverLimit
    | WrongCoordinateCount(count: nat)
    | InvalidParameter(key: string)

  /** A built URL, or the `ValueError` raised instead. */
  datatype Built = Url(url: string) | Rejected(error: RequestError)

  const RecordsMessage := "Error: records must be <= 50 per API"
  const CoordinatesPrefix := "Gave wrong number of coordinates for bounding_box ("
  const ParameterPrefix := "Parameter ("

  /** The text of the raised `ValueError`. The coordinate count and the
      offending key can be read back out of it. */
  function Message(e: RequestError): (m: string)
    ensures e.RecordsOverLimit? ==> m == RecordsMessage
    ensures e.WrongCoordinateCount? ==>
      && CoordinatesPrefix <= m
      && |m| >= |CoordinatesPrefix| + 2
      && m[|m| - 1] == ')'
      && AllDigits(m[|CoordinatesPrefix|..|m| - 1])
      && DecimalValue(m[|CoordinatesPrefix|..|m| - 1]) == e.count
      && (|m| > |CoordinatesPrefix| + 2 ==> m[|CoordinatesPrefix|] != '0')
    ensures e.InvalidParameter? ==>
      && ParameterPrefix <= m
      && |m| > |ParameterPrefix| + |e.key|
      && m[|ParameterPrefix|..|ParameterPrefix| + |e.key|] == e.key
      && m[|ParameterPrefix| + |e.key|] == ')'
  {
    match e
    case RecordsOverLimit => RecordsMessage
    case WrongCoordinateCount(n) =>
      DecimalRoundTrip(n);
      var m := CoordinatesPrefix + NatToDecimal(n) + ")";
      assert m[|CoordinatesPrefix|..|m| - 1] == NatToDecimal(n);
      m
    case InvalidParameter(k) =>
      var m := ParameterPrefix + k + ") not valid; see " + Docs + " for more information";
      assert m[|ParameterPrefix|..|ParameterPrefix| + |k|] == k;
      m
  }

  /** `'+'.join(keywords.split())`. */
  function KeywordPhrase(keywords: string): string {
    Join('+', Words(keywords))
  }

  /** The four parameters of the base URL, in the order they are written. */
  function BaseParams(keywords: string, start: int, records: int, apiKey: string): seq<Param> {
    [ Param("APIKey", apiKey),
      Param("keywords", "\"" + KeywordPhrase(keywords) + "\""),
      Param("index", IntToDecimal(start)),
      Param("max", IntToDecimal(records)) ]
  }

  /** The formatted base URL (the source's `base_url.format(...)`). */
  function BaseUrl(keywords: string, start: int, records: int, apiKey: string): string {
    Endpoint
      + "APIKey=" + apiKey
      + "&keywords=\"" + KeywordPhrase(keywords) + "\""
      + "&index=" + IntToDecimal(start)
      + "&max=" + IntToDecimal(records)
  }

  /** The base URL is the endpoint followed by the base parameters, and when
      neither the key nor the keywords contain `&` its query reads back as
      exactly those parameters. */
  lemma BaseUrlEncodes(keywords: string, start: int, records: int, apiKey: string)
    ensures BaseUrl(keywords, start, records, apiKey) == Endpoint + Encode(BaseParams(keywords, start, records, apiKey))
    ensures '&' !in apiKey && '&' !in keywords ==>
      Decode(BaseUrl(keywords, start, records, apiKey)[|Endpoint|..]) == BaseParams(keywords, start, records, apiKey)
  {
    var url := BaseUrl(keywords, start, records, apiKey);
    BaseUrlIsEncoding(keywords, start, records, apiKey, url);
    if '&' !in apiKey && '&' !in keywords {
      BaseParamsSafe(keywords, start, records, apiKey);
      DecodeEncode(BaseParams(keywords, start, records, apiKey));
      assert url[|Endpoint|..] == Encode(BaseParams(keywords, start, records, apiKey));
    }
  }

  lemma BaseUrlIsEncoding(keywords: string, start: int, records: int, apiKey: string, url: string)
    requires url == Endpoint
      + "APIKey=" + apiKey
      + "&keywords=\"" + KeywordPhrase(keywords) + "\""
      + "&index=" + IntToDecimal(start)
      + "&max=" + IntToDecimal(records)
    ensures url == Endpoint + Encode(BaseParams(keywords, start, records, apiKey))
  {
    var quoted := "\"" + KeywordPhrase(keywords) + "\"";
    EncodeFour("APIKey", apiKey, "keywords", quoted, "index", IntToDecimal(start), "max", IntToDecimal(records));
    LiteralSplits();
    ReassociateBase(Endpoint, "&", "=", "\"", "APIKey", apiKey, "keywords", KeywordPhrase(keywords),
      "index", IntToDecimal(start), "max", IntToDecimal(records));
  }

  /** Four parameters encode as `k0=v0&k1=v1&k2=v2&k3=v3`. */
  lemma EncodeFour(k0: string, v0: string, k1: string, v1: string, k2: string, v2: string, k3: string, v3: string)
    ensures Encode([Param(k0, v0), Param(k1, v1), Param(k2, v2), Param(k3, v3)])
         == (k0 + "=" + v0) + "&" + (k1 + "=" + v1) + "&" + (k2 + "=" + v2) + "&" + (k3 + "=" + v3)
  {
    JoinFour(Fields([Param(k0, v0), Param(k1, v1), Param(k2, v2), Param(k3, v3)]));
  }

  /** Proof aid with no source counterpart: regroups the base URL's
      concatenation field by field, over variables so that the literals are
      not unfolded. */
  lemma ReassociateBase(e: string, amp: string, eq: string, q: string, k0: string, v0: string,
                        k1: string, v1: string, k2: string, v2: string, k3: string, v3: string)
    ensures e + (k0 + eq) + v0 + (amp + k1 + eq + q) + v1 + q + (amp + k2 + eq) + v2 + (amp + k3 + eq) + v3
         == e + ((k0 + eq + v0) + amp + (k1 + eq + (q + v1 + q)) + amp + (k2 + eq + v2) + amp + (k3 + eq + v3))
  {
  }

  /** Proof aid with no source counterpart: cuts the base URL's literals
      where the parameters' keys end. */
  lemma LiteralSplits()
    ensures "APIKey=" == "APIKey" + "="
    ensures "&keywords=\"" == "&" + "keywords" + "=" + "\""
    ensures "&index=" == "&" + "index" + "="
    ensures "&max=" == "&" + "max" + "="
  {
  }

  lemma JoinFour(fs: seq<string>)
    requires |fs| == 4
    ensures Join('&', fs) == fs[0] + "&" + fs[1] + "&" + fs[2] + "&" + fs[3]
  {
    assert fs[1..][1..] == fs[2..];
    assert fs[2..][1..] == fs[3..];
    var j3 := Join('&', fs[3..]);
    var j2 := Join('&', fs[2..]);
    var j1 := Join('&', fs[1..]);
    assert j3 == fs[3];
    assert j2 == fs[2] + "&" + j3;
    assert j1 == fs[1] + "&" + j2;
    assert Join('&', fs) == fs[0] + "&" + j1;
  }

  /** No decimal numeral holds `&`. */
  lemma DecimalSafe(i: int)
    ensures '&' !in IntToDecimal(i)
  {
    var s := IntToDecimal(i);
    if i < 0 {
      assert s == [s[0]] + s[1..];
    }
  }

  lemma BaseParamsSafe(keywords: string, start: int, records: int, apiKey: string)
    requires '&' !in apiKey && '&' !in keywords
    ensures AllSafe(BaseParams(keywords, start, records, apiKey))
  {
    WordsExclude('&', keywords);
    JoinExcludes('&', '+', Words(keywords));
    var quoted := "\"" + KeywordPhrase(keywords) + "\"";
    assert '&' !in quoted;
    DecimalSafe(start);
    DecimalSafe(records);
    KeysSafe();
    SafeFour(Param("APIKey", apiKey), Param("keywords", quoted),
      Param("index", IntToDecimal(start)), Param("max", IntToDecimal(records)));
  }

  /** Proof aid with no source counterpart: the four base keys hold no
      delimiter. */
  lemma KeysSafe()
    ensures '&' !in "APIKey" && '=' !in "APIKey"
    ensures '&' !in "keywords" && '=' !in "keywords"
    ensures '&' !in "index" && '=' !in "index"
    ensures '&' !in "max" && '=' !in "max"
  {
  }

  /** Proof aid with no source counterpart: lifts `Safe` to a list of four. */
  lemma SafeFour(p0: Param, p1: Param, p2: Param, p3: Param)
    requires Safe(p0) && Safe(p1) && Safe(p2) && Safe(p3)
    ensures AllSafe([p0, p1, p2, p3])
  {
  }

  /** `generate_http_request(keywords, start, records, api_key)`. Rejected
      exactly when `records` exceeds 50; zero and negative counts pass. */
  function GenerateHttpRequest(keywords: string, start: int, records: int, apiKey: string): (b: Built)
    ensures b.Rejected? <==> records > MaxRecords
    ensures b.Rejected? ==> b.error == RecordsOverLimit
    ensures b.Url? ==> b.url == Endpoint + Encode(BaseParams(keywords, start, records, apiKey))
  {
    if records > MaxRecords then Rejected(RecordsOverLimit)
    else
      BaseUrlEncodes(keywords, start, records, apiKey);
      Url(BaseUrl(keywords, start, records, apiKey))
  }

  /** The keyword segment holds no whitespace, and it is empty exactly when
      there are no words. When the keywords hold no `+` and there are words,
      splitting it on `+` gives back exactly the whitespace-separated words,
      so no piece is empty. */
  lemma KeywordPhraseShape(keywords: string)
    ensures NoSpace(KeywordPhrase(keywords))
    ensures KeywordPhrase(keywords) == "" <==> Words(keywords) == []
    ensures '+' !in keywords && Words(keywords) != [] ==>
      Split('+', KeywordPhrase(keywords)) == Words(keywords)
  {
    var ws := Words(keywords);
    JoinNoSpace('+', ws);
    if ws != [] {
      assert ws[0] != [];
      if |ws| > 1 {
        assert |KeywordPhrase(keywords)| >= |ws[0]|;
      }
    }
    if '+' !in keywords && ws != [] {
      WordsExclude('+', keywords);
      SplitJoin('+', ws);
    }
  }

  /** An accepted request reads back as: the key, the quoted keyword
      segment, `start` and `records`, in this order, with the two numbers
      recoverable from their decimal text. */
  lemma AcceptedRequestFields(keywords: string, start: int, records: int, apiKey: string)
    requires records <= MaxRecords
    requires '&' !in apiKey && '&' !in keywords
    ensures var b := GenerateHttpRequest(keywords, start, records, apiKey);
      && b.Url?
      && var ps := Decode(b.url[|Endpoint|..]);
      && |ps| == 4
      && ps[0] == Param("APIKey", apiKey)
      && ps[1] == Param("keywords", "\"" + KeywordPhrase(keywords) + "\"")
      && ps[2].key == "index" && ps[2].value == IntToDecimal(start) && ParseInt(ps[2].value) == start
      && ps[3].key == "max" && ps[3].value == IntToDecimal(records) && ParseInt(ps[3].value) == records
  {
    var ps := BaseParams(keywords, start, records, apiKey);
    BaseUrlEncodes(keywords, start, records, apiKey);
    assert GenerateHttpRequest(keywords, start, records, apiKey).url == BaseUrl(keywords, start, records, apiKey);
    assert Decode(BaseUrl(keywords, start, records, apiKey)[|Endpoint|..]) == ps;
    IntRoundTrip(start);
    IntRoundTrip(records);
  }
}

=== FILE: dca_response.dfy ===
/**
 * `DonorsChooseResponse` of `dca/dca_py3.py`: the accumulator a search
 * merges its pages into, and its ASCII table view.
 *
 * The source keeps a `populated` flag beside metadata fields that start as
 * `None`; here the two states are the two constructors of `Response`, so the
 * metadata exists exactly when the flag would be set. Proposal lists are
 * values, not the aliased Python list the source extends in place.
 */
module DcaResponse {
  import opened Strings

  /** The fields of a proposal the view reads. */
  datatype Proposal = Proposal(id: string, fundingStatus: string, title: string)

  /** One decoded JSON page of the feed. */
  datatype Page = Page(
    proposals: seq<Proposal>,
    max: int,
    totalProposals: int,
    searchTerms: string,
    breadcrumb: seq<string>,
    searchUrl: string)

  /** What the first merged page contributes besides its proposals. */
  datatype Metadata = Metadata(
    recordsPerRequest: int,
    totalProposals: int,
    searchTerms: string,
    breadcrumb: seq<string>,
    searchUrl: string)

  /** A fresh accumulator, or one that has merged at least one page. */
  datatype Response = Unpopulated | Populated(meta: Metadata, proposals: seq<Proposal>)

  datatype Option<T> = None | Some(value: T)

  function MetaOf(page: Page): Metadata {
    Metadata(page.max, page.totalProposals, page.searchTerms, page.breadcrumb, page.searchUrl)
  }

  /** The `total_proposals` attribute: 0 until a page is merged. */
  function TotalProposals(r: Response): int {
    if r.Populated? then r.meta.totalProposals else 0
  }

  /** The `proposals` attribute: `None` until a page is merged. */
  function ProposalList(r: Response): Option<seq<Proposal>> {
    if r.Populated? then Some(r.proposals) else None
  }

  /** `__init__` then one `populate(page)`: before, the total is 0 and there
      is no proposal list; after, both come from the page. */
  lemma FreshThenPopulate(page: Page)
    ensures TotalProposals(Unpopulated) == 0 && ProposalList(Unpopulated) == None
    ensures TotalProposals(Populate(Unpopulated, page)) == page.totalProposals
    ensures ProposalList(Populate(Unpopulated, page)) == Some(page.proposals)
  {
  }

  /** `populate(data)`: the first merge takes every metadata field and the
      proposals from the page; a later merge keeps the metadata and appends
      the page's proposals, so the count grows by exactly the page length. */
  function Populate(r: Response, page: Page): (r': Response)
    ensures r'.Populated?
    ensures r.Unpopulated? ==> r'.meta == MetaOf(page) && r'.proposals == page.proposals
    ensures r.Populated? ==> r'.meta == r.meta
    ensures r.Populated? ==> |r'.proposals| == |r.proposals| + |page.proposals|
    ensures r.Populated? ==> r'.proposals[..|r.proposals|] == r.proposals
    ensures r.Populated? ==> r'.proposals[|r.proposals|..] == page.proposals
  {
    match r
    case Unpopulated => Populated(MetaOf(page), page.proposals)
    case Populated(meta, ps) => Populated(meta, ps + page.proposals)
  }

  /** The accumulator after merging `pages` one after the other. */
  function Accumulate(r: Response, pages: seq<Page>): Response {
    if pages == [] then r else Populate(Accumulate(r, pages[..|pages| - 1]), pages[|pages| - 1])
  }

  /** The proposals of `pages`, concatenated in order. */
  function Concat(pages: seq<Page>): seq<Proposal> {
    if pages == [] then [] else Concat(pages[..|pages| - 1]) + pages[|pages| - 1].proposals
  }

  /** Sum of the page lengths. */
  function TotalLength(pages: seq<Page>): nat {
    if pages == [] then 0 else TotalLength(pages[..|pages| - 1]) + |pages[|pages| - 1].proposals|
  }

  /** Once populated, merging more pages never touches the metadata and
      only appends the new pages' proposals. */
  lemma {:induction false} AccumulatePopulated(meta: Metadata, ps: seq<Proposal>, pages: seq<Page>)
    ensures Accumulate(Populated(meta, ps), pages) == Populated(meta, ps + Concat(pages))
    decreases |pages|
  {
    if pages != [] {
      AccumulatePopulated(meta, ps, pages[..|pages| - 1]);
    }
  }

  /** Merging a non-empty list of pages into a fresh accumulator gives the
      first page's metadata and all the pages' proposals in order. */
  lemma {:induction false} AccumulateFresh(pages: seq<Page>)
    requires |pages| >= 1
    ensures Accumulate(Unpopulated, pages) == Populated(MetaOf(pages[0]), Concat(pages))
    decreases |pages|
  {
    if |pages| == 1 {
      assert pages[..0] == [];
    } else {
      var init := pages[..|pages| - 1];
      AccumulateFresh(init);
      assert init[0] == pages[0];
    }
  }

  /** The merged proposal count is the sum of the page lengths. */
  lemma {:induction false} ConcatLength(pages: seq<Page>)
    ensures |Concat(pages)| == TotalLength(pages)
    decreases |pages|
  {
    if pages != [] {
      ConcatLength(pages[..|pages| - 1]);
    }
  }

  /** Two merges that report different totals: the accumulator keeps the
      first one's metadata, and feeding the same page twice doubles the
      proposals without touching the metadata. */
  lemma {:induction false} MetadataFromFirstMerge(first: Page, second: Page)
    ensures Populate(Populate(Unpopulated, first), second).meta == MetaOf(first)
    ensures TotalProposals(Populate(Populate(Unpopulated, first), second)) == first.totalProposals
    ensures Populate(Populate(Unpopulated, first), first).proposals == first.proposals + first.proposals
  {
    var once := Populate(Unpopulated, first);
    assert once == Populated(MetaOf(first), first.proposals);
  }

  // ASCII view

  const IdWidth := 15
  const StatusWidth := 20
  const RuleWidth := 100

  /** `'%s %s %s' % (a.ljust(15), b.ljust(20), c)`. */
  function FormatLine(a: string, b: string, c: string): string {
    LJust(a, IdWidth) + " " + LJust(b, StatusWidth) + " " + c
  }

  function Header(): string {
    FormatLine("ID", "Funding Status", "Title")
  }

  function Rule(): (r: string)
    ensures |r| == RuleWidth
    ensures forall i :: 0 <= i < |r| ==> r[i] == '-'
  {
    Repeat('-', RuleWidth)
  }

  function Row(p: Proposal): string {
    FormatLine(p.id, p.fundingStatus, p.title)
  }

  function Rows(ps: seq<Proposal>): (rows: seq<string>)
    ensures |rows| == |ps|
    ensures forall i :: 0 <= i < |ps| ==> rows[i] == Row(ps[i])
  {
    seq(|ps|, i requires 0 <= i < |ps| => Row(ps[i]))
  }

  /** `as_ascii()`: the header, a rule of dashes and one row per proposal,
      joined with newlines. A fresh response has `proposals = None`, so
      iterating it raises `TypeError`; that outcome is `None` here. */
  function AsAscii(r: Response): (text: Option<string>)
    ensures text.None? <==> r.Unpopulated?
    ensures text.Some? ==> Header() + "\n" + Rule() <= text.value
  {
    match r
    case Unpopulated => None
    case Populated(_, ps) =>
      var lines := [Header(), Rule()] + Rows(ps);
      var text := Join('\n', lines);
      var tail := Join('\n', lines[1..]);
      assert text == Header() + "\n" + tail;
      assert Rule() <= tail by {
        if |lines| > 2 {
          assert tail == Rule() + "\n" + Join('\n', lines[2..]);
        }
      }
      Some(text)
  }

  predicate NoNewline(s: string) {
    '\n' !in s
  }

  predicate PlainProposal(p: Proposal) {
    NoNewline(p.id) && NoNewline(p.fundingStatus) && NoNewline(p.title)
  }

  lemma FormatLineNoNewline(a: string, b: string, c: string)
    requires NoNewline(a) && NoNewline(b) && NoNewline(c)
    ensures NoNewline(FormatLine(a, b, c))
  {
    var la, lb := LJust(a, IdWidth), LJust(b, StatusWidth);
    assert forall i :: 0 <= i < |la| ==> la[i] != '\n' by {
      forall i | 0 <= i < |la| ensures la[i] != '\n' {
        if i < |a| {
          assert la[i] == la[..|a|][i];
        }
      }
    }
    assert forall i :: 0 <= i < |lb| ==> lb[i] != '\n' by {
      forall i | 0 <= i < |lb| ensures lb[i] != '\n' {
        if i < |b| {
          assert lb[i] == lb[..|b|][i];
        }
      }
    }
  }

  /** When no field holds a newline, the text splits into exactly
      2 + |proposals| lines: the header, the rule of 100 dashes, and the
      rows in proposal order. */
  lemma AsciiLines(r: Response)
    requires r.Populated?
    requires forall i :: 0 <= i < |r.proposals| ==> PlainProposal(r.proposals[i])
    ensures var lines := Split('\n', AsAscii(r).value);
      && |lines| == 2 + |r.proposals|
      && lines[0] == Header()
      && lines[1] == Rule()
      && forall i :: 0 <= i < |r.proposals| ==> lines[i + 2] == Row(r.proposals[i])
  {
    var lines := [Header(), Rule()] + Rows(r.proposals);
    FormatLineNoNewline("ID", "Funding Status", "Title");
    forall i | 0 <= i < |lines|
      ensures '\n' !in lines[i]
    {
      if i >= 2 {
        var p := r.proposals[i - 2];
        FormatLineNoNewline(p.id, p.fundingStatus, p.title);
      }
    }
    SplitJoin('\n', lines);
  }

  /** Column layout of a row whose identifier and status fit their widths:
      the identifier starts column 0 and is space-padded to 15, the status
      starts column 16 and is padded to 20, the title starts column 37. A
      longer field is kept whole and pushes the rest right. */
  lemma RowColumns(p: Proposal)
    ensures |Row(p)| ==
      (if |p.id| >= IdWidth then |p.id| else IdWidth) + 1 +
      (if |p.fundingStatus| >= StatusWidth then |p.fundingStatus| else StatusWidth) + 1 + |p.title|
    ensures |p.id| <= IdWidth && |p.fundingStatus| <= StatusWidth ==>
      var row := Row(p);
      && row[..|p.id|] == p.id
      && (forall i :: |p.id| <= i < IdWidth ==> row[i] == ' ')
      && row[IdWidth] == ' '
      && row[16..16 + |p.fundingStatus|] == p.fundingStatus
      && (forall i :: 16 + |p.fundingStatus| <= i < 36 ==> row[i] == ' ')
      && row[36] == ' '
      && row[37..] == p.title
  {
    var la, lb := LJust(p.id, IdWidth), LJust(p.fundingStatus, StatusWidth);
    var row := Row(p);
    assert row == la + " " + lb + " " + p.title;
    if |p.id| <= IdWidth && |p.fundingStatus| <= StatusWidth {
      assert |la| == 15 && |lb| == 20;
      assert row[..|p.id|] == la[..|p.id|];
      assert forall i :: 0 <= i < 15 ==> row[i] == la[i];
      assert forall i :: 0 <= i < 20 ==> row[16 + i] == lb[i];
      assert row[16..16 + |p.fundingStatus|] == lb[..|p.fundingStatus|];
      assert row[37..] == p.title;
    }
  }
}

=== FILE: dca_search.dfy ===
/**
 * `search_donors_choose` of `dca/dca_py3.py`: requests pages of 50 records
 * at offsets 0, 50, 100, ... and merges each into one response until a page
 * comes back with no proposals.
 *
 * The HTTP GET and JSON decoding are the parameter `fetch`, a function from
 * the request URL to the decoded page; the one-second pause between
 * requests and the log line are left out. Each URL the loop requests is
 * returned in `requested`, in order, so the number of fetches is its length.
 *
 * The loop itself is `Paginate`, stated for any function from the request
 * number to the URL requested; `SearchDonorsChoose` runs it with the URLs of
 * `generate_http_request` for offset `k * 50` and 50 records.
 */
module DcaSearch {
  import opened Strings
  import opened QueryString
  import opened DcaRequest
  import opened DcaResponse

  /** Page size of every request of the search. */
  const RecordsPerRequest := 50

  /** Offset of the `k`-th request into the result set. */
  function Offset(k: nat): nat {
    k * RecordsPerRequest
  }

  /** The URL of the `k`-th request of a search: the accepted result of the
      basic builder for offset `k * 50`, 50 records and the default key. */
  function RequestUrl(keywords: string, k: nat): string {
    GenerateHttpRequest(keywords, Offset(k), RecordsPerRequest, DefaultApiKey).url
  }

  /** The URLs of a search for `keywords`, by request number. */
  function Requests(keywords: string): nat -> string {
    (k: nat) => RequestUrl(keywords, k)
  }

  // The loop, for any numbering of the requests

  /** The page the `k`-th request is answered with. */
  function PageAt(fetch: string -> Page, request: nat -> string, k: nat): Page {
    fetch(request(k))
  }

  predicate EmptyAt(fetch: string -> Page, request: nat -> string, k: nat) {
    |PageAt(fetch, request, k).proposals| == 0
  }

  /** `n` is the first request answered with no proposals. */
  predicate IsFirstEmpty(fetch: string -> Page, request: nat -> string, n: nat) {
    EmptyAt(fetch, request, n) && forall k :: 0 <= k < n ==> !EmptyAt(fetch, request, k)
  }

  /** The answers to the first `n` requests, in order. */
  function PagesBefore(fetch: string -> Page, request: nat -> string, n: nat): (pages: seq<Page>)
    ensures |pages| == n
  {
    if n == 0 then [] else PagesBefore(fetch, request, n - 1) + [PageAt(fetch, request, n - 1)]
  }

  /** The first `n` request URLs, in order. */
  function RequestsBefore(request: nat -> string, n: nat): (urls: seq<string>)
    ensures |urls| == n
  {
    if n == 0 then [] else RequestsBefore(request, n - 1) + [request(n - 1)]
  }

  /** The response after merging the answers to the first `n` requests. */
  function MergedBefore(fetch: string -> Page, request: nat -> string, n: nat): Response {
    if n == 0 then Unpopulated else Populate(MergedBefore(fetch, request, n - 1), PageAt(fetch, request, n - 1))
  }

  /** None of the first `n` requests was answered with an empty page. */
  predicate NoneEmptyBefore(fetch: string -> Page, request: nat -> string, n: nat) {
    n == 0 || (NoneEmptyBefore(fetch, request, n - 1) && !EmptyAt(fetch, request, n - 1))
  }

  lemma {:induction false} PagesBeforeAt(fetch: string -> Page, request: nat -> string, n: nat)
    ensures forall k :: 0 <= k < n ==> PagesBefore(fetch, request, n)[k] == PageAt(fetch, request, k)
  {
    if n > 0 {
      PagesBeforeAt(fetch, request, n - 1);
    }
  }

  lemma {:induction false} RequestsBeforeAt(request: nat -> string, n: nat)
    ensures forall k :: 0 <= k < n ==> RequestsBefore(request, n)[k] == request(k)
  {
    if n > 0 {
      RequestsBeforeAt(request, n - 1);
    }
  }

  lemma {:induction false} NoneEmptyBeforeAll(fetch: string -> Page, request: nat -> string, n: nat)
    ensures NoneEmptyBefore(fetch, request, n) <==> forall k :: 0 <= k < n ==> !EmptyAt(fetch, request, k)
  {
    if n > 0 {
      NoneEmptyBeforeAll(fetch, request, n - 1);
    }
  }

  /** Merging request by request is merging the list of the answers. */
  lemma {:induction false} MergedIsAccumulate(fetch: string -> Page, request: nat -> string, n: nat)
    ensures MergedBefore(fetch, request, n) == Accumulate(Unpopulated, PagesBefore(fetch, request, n))
  {
    if n > 0 {
      MergedIsAccumulate(fetch, request, n - 1);
      var pages := PagesBefore(fetch, request, n);
      assert pages[..n - 1] == PagesBefore(fetch, request, n - 1);
    }
  }

  /** The `while not empty` loop. With `n` the first request answered by an
      empty page, it makes exactly `n + 1` requests, the first `n + 1` in
      request order (every non-empty page, then the empty one; a short
      non-empty page does not stop it), and returns the first `n` answers
      merged one after the other (`MergedIsAccumulate`, `MergedShape`). The
      source loops forever when no page is ever empty, so one must exist. */
  method Paginate(request: nat -> string, fetch: string -> Page) returns (data: Response, requested: seq<string>)
    requires exists k: nat :: EmptyAt(fetch, request, k)
    ensures |requested| >= 1
    ensures forall k :: 0 <= k < |requested| ==> requested[k] == request(k)
    ensures IsFirstEmpty(fetch, request, |requested| - 1)
    ensures data == MergedBefore(fetch, request, |requested| - 1)
  {
    ghost var stop: nat :| EmptyAt(fetch, request, stop);
    var empty := false;
    var count: nat := 0;
    data := Unpopulated;
    requested := [];
    while !empty
      invariant count <= stop
      invariant NoneEmptyBefore(fetch, request, count)
      invariant requested == RequestsBefore(request, if empty then count + 1 else count)
      invariant empty ==> EmptyAt(fetch, request, count)
      invariant data == MergedBefore(fetch, request, count)
      decreases stop - count + (if empty then 0 else 1)
    {
      var url := request(count);
      requested := requested + [url];
      var response := fetch(url);
      if |response.proposals| < 1 {
        empty := true;
        continue;
      }
      assert response == PageAt(fetch, request, count);
      assert count != stop;
      data := Populate(data, response);
      count := count + 1;
    }
    assert |requested| == count + 1;
    NoneEmptyBeforeAll(fetch, request, count);
    RequestsBeforeAt(request, count + 1);
  }

  // The search

  /** `search_donors_choose(keywords)`: the loop above, whose `k`-th request
      is `RequestUrl(keywords, k)`, the URL of
      `generate_http_request(keywords, start=k * 50, records=50)`
      (`RequestsAreBuilt`). */
  method SearchDonorsChoose(keywords: string, fetch: string -> Page) returns (data: Response, requested: seq<string>)
    requires exists k: nat :: EmptyAt(fetch, Requests(keywords), k)
    ensures |requested| >= 1
    ensures forall k :: 0 <= k < |requested| ==> requested[k] == RequestUrl(keywords, k)
    ensures IsFirstEmpty(fetch, Requests(keywords), |requested| - 1)
    ensures data == MergedBefore(fetch, Requests(keywords), |requested| - 1)
  {
    data, requested := Paginate(Requests(keywords), fetch);
  }

  /** The `k`-th URL of a search is what the basic builder returns for
      offset `k * 50`, 50 records and the default key: never a rejection. */
  lemma RequestsAreBuilt(keywords: string, k: nat)
    ensures GenerateHttpRequest(keywords, k * RecordsPerRequest, RecordsPerRequest, DefaultApiKey)
         == Url(RequestUrl(keywords, k))
    ensures Requests(keywords)(k) == RequestUrl(keywords, k)
  {
  }

  /** The `k`-th request reads back with offset `k * 50` and page size 50. */
  lemma RequestUrlFields(keywords: string, k: nat)
    requires '&' !in keywords
    ensures var ps := Decode(RequestUrl(keywords, k)[|Endpoint|..]);
      && |ps| == 4
      && ps[0] == Param("APIKey", DefaultApiKey)
      && ps[2].key == "index" && ps[2].value == IntToDecimal(Offset(k)) && ParseInt(ps[2].value) == k * RecordsPerRequest
      && ps[3].key == "max" && ps[3].value == IntToDecimal(RecordsPerRequest) && ParseInt(ps[3].value) == RecordsPerRequest
  {
    AcceptedRequestFields(keywords, Offset(k), RecordsPerRequest, DefaultApiKey);
  }

  /** The number of proposals collected is the sum of the lengths of the
      pages before the first empty one. */
  lemma CollectedCount(fetch: string -> Page, request: nat -> string, n: nat)
    requires n >= 1
    ensures |Accumulate(Unpopulated, PagesBefore(fetch, request, n)).proposals|
         == TotalLength(PagesBefore(fetch, request, n))
  {
    AccumulateFresh(PagesBefore(fetch, request, n));
    ConcatLength(PagesBefore(fetch, request, n));
  }

  /** The merged response is fresh exactly when no page was merged, and
      otherwise carries the first page's metadata and every merged page's
      proposals in request order. */
  lemma MergedShape(fetch: string -> Page, request: nat -> string, n: nat)
    ensures var data := Accumulate(Unpopulated, PagesBefore(fetch, request, n));
      && (data.Unpopulated? <==> n == 0)
      && (data.Populated? ==>
            && data.meta == MetaOf(PageAt(fetch, request, 0))
            && data.proposals == Concat(PagesBefore(fetch, request, n)))
  {
    if n > 0 {
      AccumulateFresh(PagesBefore(fetch, request, n));
      PagesBeforeAt(fetch, request, n);
    }
  }

  /** One page of 13 proposals, then an empty page: two requests, 13
      proposals, and the reported total taken from the first page. */
  lemma SinglePageSearch(fetch: string -> Page, request: nat -> string)
    requires |PageAt(fetch, request, 0).proposals| == 13
    requires EmptyAt(fetch, request, 1)
    ensures IsFirstEmpty(fetch, request, 1)
    ensures var data := Accumulate(Unpopulated, PagesBefore(fetch, request, 1));
      && |data.proposals| == 13
      && TotalProposals(data) == PageAt(fetch, request, 0).totalProposals
  {
    MergedIsAccumulate(fetch, request, 1);
    assert MergedBefore(fetch, request, 1) == Populate(Unpopulated, PageAt(fetch, request, 0));
  }

  /** Two full pages and a short one before the empty page: four requests
      and all 113 proposals; the short third page does not end the search. */
  lemma ShortPageDoesNotStop(fetch: string -> Page, request: nat -> string)
    requires |PageAt(fetch, request, 0).proposals| == 50
    requires |PageAt(fetch, request, 1).proposals| == 50
    requires |PageAt(fetch, request, 2).proposals| == 13
    requires EmptyAt(fetch, request, 3)
    ensures IsFirstEmpty(fetch, request, 3)
    ensures |Accumulate(Unpopulated, PagesBefore(fetch, request, 3)).proposals| == 113
  {
    MergedIsAccumulate(fetch, request, 3);
    var m1 := MergedBefore(fetch, request, 1);
    assert m1 == Populate(Unpopulated, PageAt(fetch, request, 0));
    var m2 := MergedBefore(fetch, request, 2);
    assert m2 == Populate(m1, PageAt(fetch, request, 1));
    assert MergedBefore(fetch, request, 3) == Populate(m2, PageAt(fetch, request, 2));
  }
}

=== FILE: query_string.dfy ===
/**
 * The query part of a request URL viewed as an ordered list of `key=value`
 * parameters separated by `&`. The request builders assemble their URLs by
 * string concatenation; this module gives the structured reading of such a
 * string and proves that, for parameters free of the delimiters, the
 * reading recovers exactly the parameters written.
 */
module QueryString {
  import opened Strings

  datatype Param = Param(key: string, value: string)

  /** `key=value`. */
  function Field(p: Param): string {
    p.key + "=" + p.value
  }

  function Fields(ps: seq<Param>): (fs: seq<string>)
    ensures |fs| == |ps|
    ensures forall i :: 0 <= i < |ps| ==> fs[i] == Field(ps[i])
  {
    seq(|ps|, i requires 0 <= i < |ps| => Field(ps[i]))
  }

  /** The parameters joined with `&`. */
  function Encode(ps: seq<Param>): string {
    Join('&', Fields(ps))
  }

  /** `&key=value` for each parameter, in order: what the builders append
      after the first parameter. */
  function Tail(ps: seq<Param>): string {
    if ps == [] then "" else "&" + Field(ps[0]) + Tail(ps[1..])
  }

  /** A field read back: the key runs up to the first `=`. */
  function DecodeField(f: string): Param {
    var i := IndexOf('=', f);
    if i == |f| then Param(f, "") else Param(f[..i], f[i + 1..])
  }

  /** The parameters of a query string: its `&`-separated fields, each read
      back with `DecodeField`. */
  function Decode(q: string): (ps: seq<Param>)
    ensures |ps| == |Split('&', q)|
  {
    var fs := Split('&', q);
    seq(|fs|, i requires 0 <= i < |fs| => DecodeField(fs[i]))
  }

  /** A parameter survives the round trip when its key holds neither
      delimiter and its value holds no `&`. */
  predicate Safe(p: Param) {
    '&' !in p.key && '=' !in p.key && '&' !in p.value
  }

  predicate AllSafe(ps: seq<Param>) {
    forall i :: 0 <= i < |ps| ==> Safe(ps[i])
  }

  lemma DecodeFieldRoundTrip(p: Param)
    requires '=' !in p.key
    ensures DecodeField(Field(p)) == p
  {
    var f := Field(p);
    assert forall j :: 0 <= j < |p.key| ==> f[j] == p.key[j];
    assert f[|p.key|] == '=';
    assert IndexOf('=', f) == |p.key|;
    assert f[..|p.key|] == p.key;
    assert f[|p.key| + 1..] == p.value;
  }

  /** Reading an encoded non-empty list of safe parameters gives the list
      back, in the same order. */
  lemma DecodeEncode(ps: seq<Param>)
    requires |ps| >= 1
    requires AllSafe(ps)
    ensures Decode(Encode(ps)) == ps
  {
    var fs := Fields(ps);
    forall i | 0 <= i < |fs|
      ensures '&' !in fs[i]
    {
      var p := ps[i];
      assert fs[i] == p.key + "=" + p.value;
      assert '&' !in p.key + "=" + p.value;
    }
    SplitJoin('&', fs);
    forall i | 0 <= i < |ps|
      ensures Decode(Encode(ps))[i] == ps[i]
    {
      DecodeFieldRoundTrip(ps[i]);
    }
  }

  /** Appending parameters to an encoded list is appending their `Tail`. */
  lemma {:induction false} EncodeAppend(ps: seq<Param>, qs: seq<Param>)
    requires |ps| >= 1
    ensures Encode(ps + qs) == Encode(ps) + Tail(qs)
    decreases |qs|
  {
    if qs != [] {
      var q := qs[0];
      assert Fields(ps + [q]) == Fields(ps) + [Field(q)];
      JoinSnoc('&', Fields(ps), Field(q));
      assert ps + qs == (ps + [q]) + qs[1..];
      EncodeAppend(ps + [q], qs[1..]);
    } else {
      assert ps + qs == ps;
    }
  }
}

=== FILE: sandbox_request.dfy ===
/**
 * The extended `generate_http_request` of `sandbox.py`: the base URL of
 * `dca/dca_py3.py`, then an optional `&concise=true`, an optional bounding
 * box of four coordinates, and extra `key=value` filters whose keys must all
 * be on a fixed allow-list. Any failed check raises `ValueError` and no URL
 * is returned.
 *
 * Bounding-box coordinates and extra-filter values are taken as already
 * rendered strings. The extra filters (Python keyword arguments) are a
 * sequence of parameters in their iteration order.
 */
module SandboxRequest {
  import opened Strings
  import opened QueryString
  import opened DcaRequest

  /** The filter names the API documents besides the ones the builder sets. */
  const ValidParameters: seq<string> := [
    "subject1", "subject2", "subject3", "subject4", "subject5", "subject6",
    "subject7", "partiallyFunded", "highLevelPoverty", "highestLevelPoverty",
    "teacherNotFunded", "proposalType", "proposalTypeFunded", "gradeType",
    "teacherType", "costToCompleteRange", "schoolType", "id", "challengeId",
    "matchingId", "state", "community", "school", "sortBy", "historical",
    "newSince"]

  predicate AllValid(extras: seq<Param>) {
    forall i :: 0 <= i < |extras| ==> extras[i].key in ValidParameters
  }

  /** Position of the first extra filter whose key is not allowed, or
      `|extras|` when every key is allowed. */
  function FirstInvalid(extras: seq<Param>): (i: nat)
    ensures i <= |extras|
    ensures forall j :: 0 <= j < i ==> extras[j].key in ValidParameters
    ensures i < |extras| ==> extras[i].key !in ValidParameters
  {
    if extras == [] || extras[0].key !in ValidParameters then 0
    else 1 + FirstInvalid(extras[1..])
  }

  /** A bounding box is rejected when given (non-empty) with a coordinate
      count other than four; an empty or absent box is skipped. */
  predicate BoxRejected(box: seq<string>) {
    |box| > 0 && |box| != 4
  }

  /** The parameters `concise` contributes. */
  function ConciseParams(concise: bool): seq<Param> {
    if concise then [Param("concise", "true")] else []
  }

  /** The parameters an accepted bounding box contributes, in the given
      order: north-west latitude and longitude, then south-east. */
  function BoxParams(box: seq<string>): seq<Param>
    requires !BoxRejected(box)
  {
    if |box| == 4 then
      [Param("nwLat", box[0]), Param("nwLng", box[1]), Param("seLat", box[2]), Param("seLng", box[3])]
    else []
  }

  /** The loop over the keyword arguments: each allowed pair is appended as
      `&key=value` in order; the first disallowed key raises, discarding
      everything appended so far. */
  function AppendExtras(url: string, extras: seq<Param>): (b: Built)
    ensures b.Rejected? <==> !AllValid(extras)
    ensures b.Rejected? ==> b.error == InvalidParameter(extras[FirstInvalid(extras)].key)
    ensures b.Url? ==> b.url == url + Tail(extras)
    decreases |extras|
  {
    if extras == [] then Url(url)
    else if extras[0].key in ValidParameters then
      var b := AppendExtras(url + "&" + extras[0].key + "=" + extras[0].value, extras[1..]);
      ExtraStep(url, extras[0], extras[1..]);
      b
    else Rejected(InvalidParameter(extras[0].key))
  }

  lemma ExtraStep(url: string, p: Param, rest: seq<Param>)
    ensures url + "&" + p.key + "=" + p.value + Tail(rest) == url + Tail([p] + rest)
  {
    assert ([p] + rest)[1..] == rest;
  }

  /** What `concise` appends to the base URL. */
  function ConciseSuffix(concise: bool): string {
    if concise then "&concise=true" else ""
  }

  /** What a four-coordinate bounding box appends. */
  function BoxSuffix(box: seq<string>): string
    requires |box| == 4
  {
    "&nwLat=" + box[0] + "&nwLng=" + box[1] + "&seLat=" + box[2] + "&seLng=" + box[3]
  }

  /** `generate_http_request(keywords, start, records, api_key, concise,
      bounding_box, **kwargs)` of `sandbox.py`. The checks run in source
      order (records, then the bounding box, then the extra keys), so the
      error raised is that of the first failing check; when all pass the URL
      is the endpoint followed by the base, concise, bounding-box and extra
      parameters, in that order. */
  function GenerateHttpRequest(keywords: string, start: int, records: int, apiKey: string,
                               concise: bool, box: seq<string>, extras: seq<Param>): (b: Built)
    ensures b.Url? <==> records <= MaxRecords && !BoxRejected(box) && AllValid(extras)
    ensures records > MaxRecords ==> b == Rejected(RecordsOverLimit)
    ensures records <= MaxRecords && BoxRejected(box) ==> b == Rejected(WrongCoordinateCount(|box|))
    ensures records <= MaxRecords && !BoxRejected(box) && !AllValid(extras) ==>
      b == Rejected(InvalidParameter(extras[FirstInvalid(extras)].key))
    ensures b.Url? ==>
      b.url == Endpoint + Encode(BaseParams(keywords, start, records, apiKey) + ConciseParams(concise) + BoxParams(box) + extras)
  {
    if records > MaxRecords then Rejected(RecordsOverLimit)
    else
      var url := BaseUrl(keywords, start, records, apiKey) + ConciseSuffix(concise);
      if |box| > 0 then
        if |box| == 4 then
          var b := AppendExtras(url + BoxSuffix(box), extras);
          AcceptedUrl(keywords, start, records, apiKey, concise, box, extras);
          b
        else Rejected(WrongCoordinateCount(|box|))
      else
        var b := AppendExtras(url, extras);
        AcceptedUrl(keywords, start, records, apiKey, concise, box, extras);
        b
  }

  /** Appending the tails of `cs`, `bs` and `extras` to a URL that encodes
      `ps` gives the URL that encodes all four lists. */
  lemma AppendedIsEncoding(prefix: string, ps: seq<Param>, cs: seq<Param>, bs: seq<Param>, extras: seq<Param>)
    requires |ps| >= 1
    ensures prefix + Encode(ps) + Tail(cs) + Tail(bs) + Tail(extras) == prefix + Encode(ps + cs + bs + extras)
  {
    var rest := cs + bs + extras;
    TailsOfThree(cs, bs, extras);
    EncodeAppend(ps, rest);
    var e, c, b, t := Encode(ps), Tail(cs), Tail(bs), Tail(extras);
    assert Tail(rest) == c + (b + t);
    AssociateParams(ps, cs, bs, extras);
    assert Encode(ps + cs + bs + extras) == e + (c + (b + t));
    Regroup(prefix, e, c, b, t);
  }

  /** Proof aid with no source counterpart: regroups a concatenation of four
      parameter lists. */
  lemma AssociateParams(ps: seq<Param>, cs: seq<Param>, bs: seq<Param>, extras: seq<Param>)
    ensures ps + cs + bs + extras == ps + (cs + bs + extras)
  {
  }

  lemma TailsOfThree(cs: seq<Param>, bs: seq<Param>, extras: seq<Param>)
    ensures Tail(cs + bs + extras) == Tail(cs) + (Tail(bs) + Tail(extras))
  {
    assert cs + bs + extras == cs + (bs + extras);
    TailConcat(cs, bs + extras);
    TailConcat(bs, extras);
  }

  /** The URL the builder assembles once every check has passed. */
  lemma AcceptedUrl(keywords: string, start: int, records: int, apiKey: string,
                    concise: bool, box: seq<string>, extras: seq<Param>)
    requires !BoxRejected(box)
    ensures
      var url := BaseUrl(keywords, start, records, apiKey) + ConciseSuffix(concise);
      var url := if |box| == 4 then url + BoxSuffix(box) else url;
      url + Tail(extras) ==
        Endpoint + Encode(BaseParams(keywords, start, records, apiKey) + ConciseParams(concise) + BoxParams(box) + extras)
  {
    var ps := BaseParams(keywords, start, records, apiKey);
    var base := BaseUrl(keywords, start, records, apiKey);
    BaseUrlEncodes(keywords, start, records, apiKey);
    ConciseTail(concise);
    BoxTail(box);
    AppendedIsEncoding(Endpoint, ps, ConciseParams(concise), BoxParams(box), extras);
    if |box| != 4 {
      assert base + ConciseSuffix(concise) + "" == base + ConciseSuffix(concise);
    }
  }

  /** Proof aid with no source counterpart: regroups a concatenation of five
      strings. */
  lemma Regroup(e: string, q: string, c: string, b: string, t: string)
    ensures e + q + c + b + t == e + (q + (c + (b + t)))
  {
  }

  lemma {:induction false} TailConcat(a: seq<Param>, b: seq<Param>)
    ensures Tail(a + b) == Tail(a) + Tail(b)
    decreases |a|
  {
    if a != [] {
      assert (a + b)[1..] == a[1..] + b;
      TailConcat(a[1..], b);
    } else {
      assert a + b == b;
    }
  }

  lemma ConciseTail(concise: bool)
    ensures Tail(ConciseParams(concise)) == ConciseSuffix(concise)
  {
    if concise {
      assert Tail(ConciseParams(concise)) == "&" + "concise" + "=" + "true" + Tail([]);
    }
  }

  lemma BoxTail(box: seq<string>)
    requires !BoxRejected(box)
    ensures Tail(BoxParams(box)) == if |box| == 4 then BoxSuffix(box) else ""
  {
    if |box| == 4 {
      var bs := BoxParams(box);
      assert bs[1..][1..] == bs[2..] && bs[2..][1..] == bs[3..] && bs[3..][1..] == [];
      assert Tail(bs[3..]) == "&" + Field(bs[3]);
      assert Tail(bs[2..]) == "&" + Field(bs[2]) + Tail(bs[3..]);
      assert Tail(bs[1..]) == "&" + Field(bs[1]) + Tail(bs[2..]);
      assert Tail(bs) == "&" + Field(bs[0]) + Tail(bs[1..]);
      BoxLiterals();
      ReassociateBox("&", "nwLat=", "nwLng=", "seLat=", "seLng=", box[0], box[1], box[2], box[3]);
    }
  }

  /** Proof aid with no source counterpart: cuts the bounding-box literals
      where the keys end. */
  lemma BoxLiterals()
    ensures "nwLat" + "=" == "nwLat=" && "nwLng" + "=" == "nwLng="
    ensures "seLat" + "=" == "seLat=" && "seLng" + "=" == "seLng="
    ensures "&nwLat=" == "&" + "nwLat=" && "&nwLng=" == "&" + "nwLng="
    ensures "&seLat=" == "&" + "seLat=" && "&seLng=" == "&" + "seLng="
  {
  }

  /** Proof aid with no source counterpart: regroups the bounding-box suffix
      field by field, over variables so that the literals are not unfolded. */
  lemma ReassociateBox(amp: string, k0: string, k1: string, k2: string, k3: string,
                       v0: string, v1: string, v2: string, v3: string)
    ensures amp + (k0 + v0) + (amp + (k1 + v1) + (amp + (k2 + v2) + (amp + (k3 + v3))))
         == (amp + k0) + v0 + (amp + k1) + v1 + (amp + k2) + v2 + (amp + k3) + v3
  {
  }

  /** Without `concise`, bounding box or extra filters the extended builder
      behaves exactly like the basic one, rejection included. */
  lemma PlainMatchesBasic(keywords: string, start: int, records: int, apiKey: string)
    ensures GenerateHttpRequest(keywords, start, records, apiKey, false, [], [])
         == DcaRequest.GenerateHttpRequest(keywords, start, records, apiKey)
  {
    if records <= MaxRecords {
      var base := BaseUrl(keywords, start, records, apiKey);
      assert base + ConciseSuffix(false) == base;
      assert base + Tail([]) == base;
    }
  }

  /** An accepted URL is the basic builder's URL, then `&concise=true` when
      asked for, then the four coordinates, then each extra filter as
      `&key=value`: the basic URL is always a prefix. */
  lemma AcceptedLayout(keywords: string, start: int, records: int, apiKey: string,
                       concise: bool, box: seq<string>, extras: seq<Param>)
    requires GenerateHttpRequest(keywords, start, records, apiKey, concise, box, extras).Url?
    ensures
      var basic := DcaRequest.GenerateHttpRequest(keywords, start, records, apiKey);
      var url := GenerateHttpRequest(keywords, start, records, apiKey, concise, box, extras).url;
      && basic.Url?
      && url == basic.url + ConciseSuffix(concise) + (if |box| == 4 then BoxSuffix(box) else "") + Tail(extras)
      && basic.url <= url
  {
    var ps := BaseParams(keywords, start, records, apiKey);
    var base := BaseUrl(keywords, start, records, apiKey);
    BaseUrlEncodes(keywords, start, records, apiKey);
    ConciseTail(concise);
    BoxTail(box);
    AppendedIsEncoding(Endpoint, ps, ConciseParams(concise), BoxParams(box), extras);
    var url := GenerateHttpRequest(keywords, start, records, apiKey, concise, box, extras).url;
    var b := if |box| == 4 then BoxSuffix(box) else "";
    Regroup(base, ConciseSuffix(concise), b, Tail(extras), "");
    assert url == base + (ConciseSuffix(concise) + (b + (Tail(extras) + "")));
  }

  /** When no value contains `&`, the query of an accepted URL reads back
      as exactly the base, concise, bounding-box and extra parameters, in
      that order: nothing is lost, added or reordered. */
  lemma AcceptedDecodes(keywords: string, start: int, records: int, apiKey: string,
                        concise: bool, box: seq<string>, extras: seq<Param>)
    requires GenerateHttpRequest(keywords, start, records, apiKey, concise, box, extras).Url?
    requires '&' !in apiKey && '&' !in keywords
    requires forall i :: 0 <= i < |box| ==> '&' !in box[i]
    requires AllSafe(extras)
    ensures
      var url := GenerateHttpRequest(keywords, start, records, apiKey, concise, box, extras).url;
      Decode(url[|Endpoint|..]) == BaseParams(keywords, start, records, apiKey) + ConciseParams(concise) + BoxParams(box) + extras
  {
    var ps := BaseParams(keywords, start, records, apiKey);
    var cs := ConciseParams(concise);
    var bs := BoxParams(box);
    var all := ps + cs + bs + extras;
    BaseParamsSafe(keywords, start, records, apiKey);
    ExtensionsSafe(concise, box);
    SafeConcat(ps, cs);
    SafeConcat(ps + cs, bs);
    SafeConcat(ps + cs + bs, extras);
    DecodeEncode(all);
    var url := GenerateHttpRequest(keywords, start, records, apiKey, concise, box, extras).url;
    assert url == Endpoint + Encode(all);
    assert url[|Endpoint|..] == Encode(all);
  }

  lemma ExtensionsSafe(concise: bool, box: seq<string>)
    requires !BoxRejected(box)
    requires forall i :: 0 <= i < |box| ==> '&' !in box[i]
    ensures AllSafe(ConciseParams(concise))
    ensures AllSafe(BoxParams(box))
  {
    assert Safe(Param("concise", "true"));
    if |box| == 4 {
      assert Safe(Param("nwLat", box[0])) && Safe(Param("nwLng", box[1]));
      assert Safe(Param("seLat", box[2])) && Safe(Param("seLng", box[3]));
      SafeFour(Param("nwLat", box[0]), Param("nwLng", box[1]), Param("seLat", box[2]), Param("seLng", box[3]));
    }
  }


  lemma SafeConcat(a: seq<Param>, b: seq<Param>)
    requires AllSafe(a) && AllSafe(b)
    ensures AllSafe(a + b)
  {
    forall i | 0 <= i < |a + b|
      ensures Safe((a + b)[i])
    {
      if i >= |a| {
        assert (a + b)[i] == b[i - |a|];
      }
    }
  }
}

=== FILE: strings.dfy ===
/**
 * The handful of Python string operations the request builders and the
 * ASCII view rely on, written over `string` (a `seq<char>`):
 *  - `str.split()` with no argument (`Words`),
 *  - `sep.join(parts)` for a one-character separator (`Join`),
 *  - `str.split(sep)` for a one-character separator (`Split`),
 *  - `str.ljust(width)` (`LJust`),
 *  - `str(n)` for integers (`IntToDecimal`).
 */
module Strings {

  /** The characters Python 3's `str.isspace()` accepts; `str.split()` with
      no argument separates on exactly these. */
  predicate IsSpace(c: char) {
    var n := c as int;
    || (9 <= n <= 13)
    || (28 <= n <= 32)
    || n == 0x85 || n == 0xA0 || n == 0x1680
    || (0x2000 <= n <= 0x200A)
    || n == 0x2028 || n == 0x2029 || n == 0x202F || n == 0x205F || n == 0x3000
  }

  predicate NoSpace(s: string) {
    forall i :: 0 <= i < |s| ==> !IsSpace(s[i])
  }

  /** Length of the longest prefix of `s` free of whitespace. */
  function TokenLength(s: string): (n: nat)
    ensures n <= |s|
    ensures forall i :: 0 <= i < n ==> !IsSpace(s[i])
    ensures n < |s| ==> IsSpace(s[n])
  {
    if s == [] || IsSpace(s[0]) then 0 else 1 + TokenLength(s[1..])
  }

  /** Python's `s.split()`: the maximal whitespace-free runs of `s`, in order. */
  function Words(s: string): (ws: seq<string>)
    ensures forall i :: 0 <= i < |ws| ==> ws[i] != [] && NoSpace(ws[i])
    decreases |s|
  {
    if s == [] then []
    else if IsSpace(s[0]) then Words(s[1..])
    else
      var n := TokenLength(s);
      [s[..n]] + Words(s[n..])
  }

  predicate AllSpace(s: string) {
    forall i :: 0 <= i < |s| ==> IsSpace(s[i])
  }

  /** `gaps[0] + ws[0] + gaps[1] + ... + ws[n-1] + gaps[n]`. */
  function Interleave(gaps: seq<string>, ws: seq<string>): string
    requires |gaps| == |ws| + 1
    decreases |ws|
  {
    if ws == [] then gaps[0] else gaps[0] + ws[0] + Interleave(gaps[1..], ws[1..])
  }

  /** The whitespace runs of `s` around its words: the one before the first
      word, one between each pair of neighbours, and the one after the last. */
  function Gaps(s: string): (gs: seq<string>)
    ensures |gs| == |Words(s)| + 1
    ensures forall i :: 0 <= i < |gs| ==> AllSpace(gs[i])
    ensures forall i :: 0 < i < |gs| - 1 ==> gs[i] != []
    ensures s != [] && IsSpace(s[0]) ==> gs[0] != []
    decreases |s|
  {
    if s == [] then [""]
    else if IsSpace(s[0]) then
      var g := Gaps(s[1..]);
      [[s[0]] + g[0]] + g[1..]
    else
      var n := TokenLength(s);
      assert Words(s[n..]) != [] ==> s[n..] != [];
      [""] + Gaps(s[n..])
  }

  /** Prefixing the first gap with `c` prefixes the whole interleaving. */
  lemma InterleaveCons(c: char, gaps: seq<string>, ws: seq<string>)
    requires |gaps| == |ws| + 1
    ensures Interleave([[c] + gaps[0]] + gaps[1..], ws) == [c] + Interleave(gaps, ws)
  {
    var gs := [[c] + gaps[0]] + gaps[1..];
    assert gs[1..] == gaps[1..];
  }

  /** `s` is its words interleaved with its whitespace runs. With the contracts
      of `Words` and `Gaps` (words non-empty and whitespace-free, runs all
      whitespace and non-empty between neighbouring words) this pins the words
      down as the maximal whitespace-free runs of `s`, in order, with every
      character of `s` in a word or in a run. */
  lemma {:induction false} WordsCover(s: string)
    ensures Interleave(Gaps(s), Words(s)) == s
    decreases |s|
  {
    if s == [] {
    } else if IsSpace(s[0]) {
      WordsCover(s[1..]);
      InterleaveCons(s[0], Gaps(s[1..]), Words(s[1..]));
      assert s == [s[0]] + s[1..];
    } else {
      var n := TokenLength(s);
      WordsCover(s[n..]);
      var gs := [""] + Gaps(s[n..]);
      assert gs[1..] == Gaps(s[n..]);
      assert s == s[..n] + s[n..];
    }
  }

  /** `[sep].join(parts)`: the parts with one `sep` between neighbours. */
  function Join(sep: char, parts: seq<string>): string {
    if |parts| == 0 then ""
    else if |parts| == 1 then parts[0]
    else parts[0] + [sep] + Join(sep, parts[1..])
  }

  /** Index of the first `c` in `s`, or `|s|` when there is none. */
  function IndexOf(c: char, s: string): (i: nat)
    ensures i <= |s|
    ensures forall j :: 0 <= j < i ==> s[j] != c
    ensures i < |s| ==> s[i] == c
  {
    if s == [] || s[0] == c then 0 else 1 + IndexOf(c, s[1..])
  }

  /** Python's `s.split(sep)` for a single-character separator: never empty,
      and `"".split(sep) == [""]`. */
  function Split(sep: char, s: string): (parts: seq<string>)
    ensures |parts| >= 1
    ensures forall i :: 0 <= i < |parts| ==> sep !in parts[i]
    decreases |s|
  {
    var i := IndexOf(sep, s);
    if i == |s| then [s] else [s[..i]] + Split(sep, s[i + 1..])
  }

  /** `[c] * n`. */
  function Repeat(c: char, n: nat): (r: string)
    ensures |r| == n
    ensures forall i :: 0 <= i < n ==> r[i] == c
  {
    seq(n, _ => c)
  }

  /** Python's `s.ljust(width)`: pads with spaces on the right up to `width`
      characters and never truncates. */
  function LJust(s: string, width: int): (r: string)
    ensures |r| == if |s| >= width then |s| else width
    ensures r[..|s|] == s
    ensures forall i :: |s| <= i < |r| ==> r[i] == ' '
  {
    if |s| >= width then s else s + Repeat(' ', width - |s|)
  }

  predicate IsDigit(c: char) {
    '0' <= c <= '9'
  }

  predicate AllDigits(s: string) {
    forall i :: 0 <= i < |s| ==> IsDigit(s[i])
  }

  function DigitChar(d: nat): (c: char)
    requires d < 10
    ensures IsDigit(c)
  {
    (48 + d) as char
  }

  /** Decimal digits of `n`, most significant first, without leading zeros. */
  function NatToDecimal(n: nat): (s: string)
    ensures |s| >= 1 && AllDigits(s)
    ensures s[0] == '0' <==> n == 0
    ensures n == 0 ==> s == "0"
    decreases n
  {
    if n < 10 then [DigitChar(n)] else NatToDecimal(n / 10) + [DigitChar(n % 10)]
  }

  /** The number a string of decimal digits denotes. */
  function DecimalValue(s: string): nat
    requires AllDigits(s)
  {
    if s == [] then 0
    else
      assert IsDigit(s[|s| - 1]);
      10 * DecimalValue(s[..|s| - 1]) + (s[|s| - 1] as int - 48)
  }

  /** Python's `str(i)` / `'{}'.format(i)` for an integer: canonical, so no
      leading zero except in "0" itself. */
  function IntToDecimal(i: int): (s: string)
    ensures |s| >= 1
    ensures i < 0 <==> s[0] == '-'
    ensures i < 0 ==> AllDigits(s[1..])
    ensures i >= 0 ==> AllDigits(s)
    ensures i == 0 ==> s == "0"
    ensures i >= 0 ==> (s[0] == '0' <==> i == 0)
    ensures i < 0 ==> |s| >= 2 && s[1] != '0'
  {
    if i < 0 then "-" + NatToDecimal(-i) else NatToDecimal(i)
  }

  /** Reads back what `IntToDecimal` writes. */
  function ParseInt(s: string): int
    requires |s| >= 1
    requires if s[0] == '-' then AllDigits(s[1..]) else AllDigits(s)
  {
    if s[0] == '-' then 0 - DecimalValue(s[1..]) as int else DecimalValue(s)
  }

  lemma {:induction false} DecimalRoundTrip(n: nat)
    ensures DecimalValue(NatToDecimal(n)) == n
    decreases n
  {
    if n >= 10 {
      DecimalRoundTrip(n / 10);
      var s := NatToDecimal(n);
      assert s[..|s| - 1] == NatToDecimal(n / 10);
    }
  }

  /** Rendering an integer and parsing it back gives the integer again, so
      distinct integers render to distinct strings. */
  lemma IntRoundTrip(i: int)
    ensures ParseInt(IntToDecimal(i)) == i
  {
    if i < 0 {
      DecimalRoundTrip(-i);
      assert IntToDecimal(i)[1..] == NatToDecimal(-i);
    } else {
      DecimalRoundTrip(i);
    }
  }

  /** Splitting a `sep`-joined list of `sep`-free parts gives the parts back. */
  lemma {:induction false} SplitJoin(sep: char, parts: seq<string>)
    requires |parts| >= 1
    requires forall i :: 0 <= i < |parts| ==> sep !in parts[i]
    ensures Split(sep, Join(sep, parts)) == parts
    decreases |parts|
  {
    var w := parts[0];
    if |parts| == 1 {
      assert IndexOf(sep, w) == |w|;
    } else {
      var rest := Join(sep, parts[1..]);
      assert Join(sep, parts) == w + [sep] + rest;
      SplitAtFirst(sep, w, rest);
      SplitJoin(sep, parts[1..]);
    }
  }

  /** Splitting cuts at the first separator. */
  lemma SplitAtFirst(sep: char, w: string, rest: string)
    requires sep !in w
    ensures Split(sep, w + [sep] + rest) == [w] + Split(sep, rest)
  {
    var s := w + [sep] + rest;
    assert forall j :: 0 <= j < |w| ==> s[j] == w[j];
    assert s[|w|] == sep;
    var i := IndexOf(sep, s);
    assert i == |w|;
    assert s[..i] == w;
    assert s[i + 1..] == rest;
  }

  /** Joining whitespace-free parts with a non-space separator gives a
      whitespace-free string. */
  lemma {:induction false} JoinNoSpace(sep: char, parts: seq<string>)
    requires !IsSpace(sep)
    requires forall i :: 0 <= i < |parts| ==> NoSpace(parts[i])
    ensures NoSpace(Join(sep, parts))
    decreases |parts|
  {
    if |parts| > 1 {
      JoinNoSpace(sep, parts[1..]);
      var s := parts[0] + [sep] + Join(sep, parts[1..]);
      forall i | 0 <= i < |s|
        ensures !IsSpace(s[i])
      {
        if i > |parts[0]| {
          assert s[i] == Join(sep, parts[1..])[i - |parts[0]| - 1];
        }
      }
    }
  }

  /** A character absent from every part and from the separator is absent
      from the join. */
  lemma {:induction false} JoinExcludes(c: char, sep: char, parts: seq<string>)
    requires c != sep
    requires forall i :: 0 <= i < |parts| ==> c !in parts[i]
    ensures c !in Join(sep, parts)
    decreases |parts|
  {
    if |parts| > 1 {
      JoinExcludes(c, sep, parts[1..]);
      var s := parts[0] + [sep] + Join(sep, parts[1..]);
      forall i | 0 <= i < |s|
        ensures s[i] != c
      {
        if i > |parts[0]| {
          assert s[i] == Join(sep, parts[1..])[i - |parts[0]| - 1];
        } else if i < |parts[0]| {
          assert s[i] == parts[0][i];
        }
      }
    }
  }

  /** Appending a part adds one separator and the part at the end. */
  lemma {:induction false} JoinSnoc(sep: char, parts: seq<string>, w: string)
    requires |parts| >= 1
    ensures Join(sep, parts + [w]) == Join(sep, parts) + [sep] + w
    decreases |parts|
  {
    if |parts| > 1 {
      assert (parts + [w])[1..] == parts[1..] + [w];
      JoinSnoc(sep, parts[1..], w);
    }
  }

  function SumLengths(parts: seq<string>): nat {
    if parts == [] then 0 else |parts[0]| + SumLengths(parts[1..])
  }

  /** A join of no parts is empty. Otherwise it starts with the first part,
      ends with the last, and adds one separator per pair of neighbours. */
  lemma {:induction false} JoinShape(sep: char, parts: seq<string>)
    ensures parts == [] ==> Join(sep, parts) == ""
    ensures parts != [] ==> parts[0] <= Join(sep, parts)
    ensures parts != [] ==> |Join(sep, parts)| == SumLengths(parts) + |parts| - 1
    ensures parts != [] ==> var r, last := Join(sep, parts), parts[|parts| - 1];
      |last| <= |r| && r[|r| - |last|..] == last
    decreases |parts|
  {
    if |parts| > 1 {
      JoinShape(sep, parts[1..]);
      var rest := Join(sep, parts[1..]);
      var r := parts[0] + [sep] + rest;
      assert Join(sep, parts) == r;
      var last := parts[|parts| - 1];
      assert parts[1..][|parts| - 2] == last;
      assert r[|r| - |last|..] == rest[|rest| - |last|..];
    }
  }

  /** A character of a word is a character of the text it came from. */
  lemma {:induction false} WordsExclude(c: char, s: string)
    requires c !in s
    ensures forall i :: 0 <= i < |Words(s)| ==> c !in Words(s)[i]
    decreases |s|
  {
    if s != [] {
      if IsSpace(s[0]) {
        WordsExclude(c, s[1..]);
      } else {
        var n := TokenLength(s);
        WordsExclude(c, s[n..]);
        assert Words(s) == [s[..n]] + Words(s[n..]);
      }
    }
  }

  /** `str.split()` undoes a single-space join of non-empty, whitespace-free
      words: the words of a keyword phrase are recovered exactly. */
  lemma {:induction false} WordsJoinSpace(ws: seq<string>)
    requires forall i :: 0 <= i < |ws| ==> ws[i] != [] && NoSpace(ws[i])
    ensures Words(Join(' ', ws)) == ws
    decreases |ws|
  {
    if |ws| == 1 {
      var w := ws[0];
      var n := TokenLength(w);
      assert n == |w|;
      assert w[..n] == w;
      assert w[n..] == [];
    } else if |ws| > 1 {
      var w := ws[0];
      var rest := Join(' ', ws[1..]);
      var s := w + [' '] + rest;
      assert Join(' ', ws) == s;
      assert forall j :: 0 <= j < |w| ==> s[j] == w[j];
      assert IsSpace(s[|w|]);
      var n := TokenLength(s);
      assert n == |w|;
      assert s[..n] == w;
      assert s[n..] == [' '] + rest;
      assert ([' '] + rest)[1..] == rest;
      WordsJoinSpace(ws[1..]);
    }
  }
}
